=== FILE: README.md ===
# Metallic/smoothness texture combiner, modelled in Dafny

The combiner is a one-form desktop tool. It takes a metallic map and a
smoothness (or roughness) map, both grayscale, and packs them into one RGBA
texture: metallic goes in red, smoothness goes in alpha, and green and blue are
zero. A roughness map is inverted (`255 - v`) into smoothness first. Either
input may be left out:

- "Non-metallic" stands in an all-black metallic channel.
- "All solid" stands in an all-white smoothness channel. That white channel is
  itself inverted when the map is read as roughness.

The model covers four parts of `process`:

- The form's values are trimmed and checked against four rejection rules, in a
  fixed order.
- The named files are opened, metallic first.
- A missing channel is filled in, and the channels are combined.
- The result is saved unless the destination exists and the user declines to
  overwrite it.

Files:

- `strings.dfy` (`Strings`): Python's `str.strip()`. It removes every
  character `str.isspace()` accepts from both ends.
- `channels.dfy` (`Channels`): 8-bit single-channel images (`Channel`) and RGBA
  textures (`Texture`), stored row-major. It also holds `Invert`
  (`ImageOps.invert`), `Merge` (`Image.merge`), `GetChannel`
  (`Image.getchannel`) and `Combine` (`combine`).
- `requests.dfy` (`Requests`): the form record (`Request`), the trimmed form
  (`Form`), and the ordered decision table (`Decide`). `Validate` is reading
  followed by deciding.
- `processing.dfy` (`Processing`): opening (`OpenOne`, `OpenBoth`, which stand
  for `Images.open`), the fill step (`FillMissing`), the loading-and-combining
  block (`Render`), and the save decision. The save decision comes in two
  versions:
  - `Execute` has the overwrite prompt working as intended.
  - `ExecuteAsWritten` follows the code, where clicking No still overwrites
    (see "## Findings").

  `Submit` is `process` after the form is read, and `Process` is `Submit`
  applied to `Read(req)`. Both use the intended prompt. `SubmitAsWritten` and
  `ProcessAsWritten` are the same compositions with the prompt as written.
  The end-to-end lemmas are stated on the read form, so they cover every
  request that reads to it.

Environment inputs are parameters:

- The file system is a `map<string, FileContent>`. A path with no entry raises
  `FileNotFoundError`. `Garbage` raises `UnidentifiedImageError`.
  `Picture(c)` is a decodable image, given as the 8-bit grayscale channel
  that `combine` derives from it.
- Whether the destination exists is the boolean `destExists`.
- The answer to the overwrite prompt is the boolean `confirm`, true when the
  user clicks Yes. This is the prompt as it is evidently meant to work. As the
  code is written, clicking No overwrites too (see "## Findings");
  `ExecuteAsWritten` models that, with the clicked button as an `Answer`.

A saved texture is returned in the `Saved` outcome instead of being written.

Behaviour of the code that is easy to miss, and that the model keeps:

- Validation is exactly the four rules of `process`, including the
  "Non-metallic" checkbox.
- The black metallic fill applies in colour mode too: Non-metallic together
  with a smoothness file is accepted.
- Solid mode always needs the metallic file. It drops any smoothness path, and
  solid mode with Non-metallic is refused. So the combination "solid mode with
  only a smoothness file" does not exist.
- In solid mode with "Smoothness" unchecked, the white fill is inverted as
  roughness, so alpha is 0 everywhere, not 255.
- Two user files of different sizes make `Image.merge` raise an exception that
  `process` does not catch. The model gives this its own outcome, `Crashed`,
  which writes nothing. `Combine` requires equal sizes.

`Requests.Validate` is `Decide` applied to `Read(req)` and has no contract of
its own. `EmptySaveFileRejectedFirst`, `RejectionOrder`,
`AcceptedNormalisation`, `AcceptedPathsStripped`, `ValidateIgnoresPadding` and
`AcceptedIff` state its behaviour on the raw request. The popup texts are
`Reason.Message` and `LoadError.Message`. `MessagesDistinct`,
`MessageAsWritten` and `IntendedMessageNamesFailure` state what those texts
tell the user.

## Model

| member | source | states |
|---|---|---|
| Strings.TrimStart | combiner.py:72-76 | the left half of `strip`: the result is a suffix of the input, everything removed is whitespace, and the result does not start with whitespace |
| Strings.TrimEnd | combiner.py:72-76 | the right half of `strip`: the result is a prefix of the input, everything removed is whitespace, and the result does not end with whitespace |
| Strings.Strip | combiner.py:72-76 | `strip()` leaves no whitespace at either end; the result is a contiguous piece of the input with only whitespace around it; it is empty exactly when the input is all whitespace |
| Strings.StripOfPadded | combiner.py:72-76 | reference characterisation: whitespace around a string with no whitespace at its ends is exactly what `strip` removes |
| Strings.StripIdempotent | combiner.py:72-76 | stripping twice is stripping once |
| Channels.Filled | combiner.py:107-109 | `Image.new("L", size[, v])` has the requested size and the value `v` at every pixel |
| Channels.Invert | combiner.py:61-62 | `ImageOps.invert` keeps the size and maps every sample `v` to `255 - v` |
| Channels.InvertInvolutive | combiner.py:61-62 | inverting twice gives the channel back |
| Channels.InvertFilled | combiner.py:108-110 | inverting a solid channel gives the solid channel of `255 - v`; the inverted black fill is white |
| Channels.Merge | combiner.py:63-64 | `Image.merge("RGBA", …)` of four same-sized bands has their size, and each pixel holds the four bands' samples at that position |
| Channels.GetChannel | combiner.py:63-64 | reads one band back out of the RGBA output of `merge`: it has the texture's size and holds the chosen band of every pixel; the model uses it to state what each band of a combined texture holds |
| Channels.GetChannelOfMerge | combiner.py:63-64 | splitting a merged texture returns the four bands it was merged from |
| Channels.MergeOfGetChannels | combiner.py:63-64 | merging a texture's four bands gives back the texture |
| Channels.Combine | combiner.py:49-64 | the output has the inputs' size; every pixel is (metallic, 0, 0, smoothness), or (metallic, 0, 0, 255 - smoothness) when `is_rough` is set |
| Channels.CombineAt | combiner.py:56-64 | the same per-pixel promise, stated at column x, row y |
| Channels.CombineChannels | combiner.py:49-64 | read band by band: red is the metallic input, green and blue are black, and alpha is the smoothness input unchanged, or inverted when `is_rough` |
| Channels.CombineRoughIsCombineInverted | combiner.py:53-62 | combining a roughness map is the same as combining its inversion as a smoothness map |
| Requests.Read | combiner.py:72-77 | the read form's paths carry no surrounding whitespace, and each is empty exactly when its field is all whitespace |
| Requests.Decide | combiner.py:79-100 | rejects exactly when one of the four rules fails, and names the first failing rule in checking order; on acceptance, Non-metallic empties the metallic path, solid mode empties the smoothness path, and the other fields pass through |
| Requests.MessagesDistinct | combiner.py:79-96 | the four "Oops" popups have four different texts, so each names its rule |
| Requests.EmptySaveFileRejectedFirst | combiner.py:79-81 | a blank destination is rejected with the save-file message, whatever the other inputs are |
| Requests.RejectionOrder | combiner.py:83-96 | given a destination: missing metallic without Non-metallic, then colour mode without smoothness, then solid mode with Non-metallic; each rule is the reason exactly when it fails and the rules before it pass |
| Requests.AcceptedNormalisation | combiner.py:97-100 | accepted paths are the trimmed inputs, except that Non-metallic clears the metallic path and solid mode clears the smoothness path; `isRough` is `not smooth`; the destination is the non-empty trimmed save path |
| Requests.AcceptedHasSource | combiner.py:83-100 | every accepted form names at least one source file; solid mode names exactly the metallic file; colour mode always names the smoothness file; the metallic path is empty exactly when Non-metallic is set |
| Requests.AcceptedPathsStripped | combiner.py:72-76 | no accepted path starts or ends with whitespace |
| Requests.ValidateIgnoresPadding | combiner.py:72-76 | trimming the fields before submitting does not change the verdict |
| Requests.AcceptedIff | combiner.py:79-96 | a request is accepted exactly when its destination is not blank, a metallic file or Non-metallic is given, a smoothness file or solid mode is given, and not both solid and Non-metallic |
| Processing.OpenOne | combiner.py:31-36 | an empty path is not opened; a missing file fails with `FileNotFound` naming the path; an undecodable file fails with `NotAnImage` naming the path; a decodable file is returned as it is |
| Processing.MessageAsWritten | combiner.py:112-117 | the "File not found" popup names the missing path, but the "Not an image" popup reads the same for every path, because `e.filename` is `None` there |
| Processing.IntendedMessageNamesFailure | combiner.py:112-117 | with the intended texts, two different load failures always give two different popups |
| Processing.OpenBoth | combiner.py:29-36 | succeeds exactly when both paths open, with both results; when the metallic path fails, its error is the one reported, and otherwise the smoothness path's error is |
| Processing.FillMissing | combiner.py:106-110 | a missing metallic channel becomes all 0 at the smoothness channel's size; a missing smoothness channel becomes all 255 at the metallic channel's size; opened channels pass through; when one was missing, the two sizes match |
| Processing.Render | combiner.py:104-117 | fails exactly when opening fails, with that error; a size mismatch can only happen when both files are named |
| Processing.Execute | combiner.py:104-128 | with the prompt working as intended: a plan is saved only to its destination, and only if that does not exist or the user clicks Yes; a decline happens only on an existing destination where the user clicks No |
| Processing.ExecuteAsWritten | combiner.py:119-128 | as written, `not choice` is never true, because both button events are non-empty strings: no run is ever declined, and a save goes to the plan's destination |
| Processing.AsWrittenIgnoresAnswer | combiner.py:119-128 | as written, every run ends exactly as it would on a new destination, whichever button is clicked |
| Processing.NoStillOverwrites | combiner.py:119-127 | the discrepancy: on an existing destination, clicking No saves over it as written, while the intended prompt declines |
| Processing.Submit | combiner.py:79-128 | with the prompt as intended: refused exactly when the decision table rejects the read form, with that reason; saved only when the destination is new or Yes is clicked, and only to the non-empty save path; a crash needs colour mode and a metallic file |
| Processing.Process | combiner.py:71-128 | with the prompt as intended: refused exactly when validation rejects; saved only when the destination is new or Yes is clicked, and only to the trimmed, non-empty save path; a crash needs colour mode without Non-metallic |
| Processing.SubmitAsWritten | combiner.py:79-128 | as written: refused exactly when the decision table rejects, with that reason; a save goes only to the non-empty save path; never declined |
| Processing.ProcessAsWritten | combiner.py:71-128 | `process` as written end to end: refused exactly when validation rejects; a save goes only to the trimmed, non-empty save path; never declined |
| Processing.SubmitAsWrittenIgnoresAnswer | combiner.py:79-128 | as written, every submission ends as the intended one does on a new destination, whatever the destination and the button clicked |
| Processing.SubmitNoStillOverwrites | combiner.py:97-128 | the discrepancy for a whole form: an accepted form whose files render, sent to an existing destination with No clicked, is saved as written and declined as intended |
| Processing.SubmitAccepted | combiner.py:97-111 | an accepted form runs its normalised plan, which names a source file |
| Processing.RenderMetallicOnly | combiner.py:99-111 | with only a metallic file: red is that file, green and blue are black, and alpha is all 255, or all 0 when `is_rough` |
| Processing.RenderSmoothnessOnly | combiner.py:97-111 | with only a smoothness file: red is all 0 at that file's size, and alpha is the file, or its inversion when `is_rough` |
| Processing.RenderBoth | combiner.py:105-111 | with two files: they are combined as given when their sizes agree, and the result is a mismatch otherwise |
| Processing.RenderReportsFirstFailure | combiner.py:104-117 | a metallic file that fails to open is reported whatever the smoothness path holds; otherwise the smoothness file's failure is reported |
| Processing.ExecuteSaveDecision | combiner.py:119-128 | with the prompt as intended: a plan is saved exactly when it would be saved to a new destination and (the destination is new or the user confirms); it is declined exactly when the user refuses an existing destination; no other outcome depends on the prompt |
| Processing.SaveDecision | combiner.py:119-128 | with the prompt as intended: the same save/decline/unchanged statement for a whole submitted form; a refused form never reaches the prompt |
| Processing.SolidModeOutput | combiner.py:97-128 | solid mode, with the prompt as intended: saved exactly when the destination is new or Yes is clicked; red equals the metallic file; alpha is 255 everywhere when the form is not rough ("Smoothness" checked) and 0 everywhere when it is |
| Processing.NonMetallicOutput | combiner.py:97-128 | Non-metallic, with the prompt as intended: saved exactly when the destination is new or Yes is clicked; red is all 0 at the smoothness file's size; alpha is the file when the form is not rough and its inversion when it is |
| Processing.ColorModeOutput | combiner.py:105-128 | colour mode with two same-sized files, with the prompt as intended: an allowed save writes `combine(m, s, is_rough)` to the destination; files of different sizes end in the uncaught mismatch |
| Processing.LoadFailureReported | combiner.py:112-117 | a named file that does not open ends the run with its error, whatever the destination and the answer; the metallic file's error wins |

## Left out

- The window layout, the event loop in `main`, and the popups are user interface. The popup texts are kept as `Reason.Message` and `LoadError.Message`. The overwrite dialog is the `confirm` input, or the `Answer` in `ExecuteAsWritten`.
- `ImageOps.grayscale` is floating-point colour-to-luma conversion inside the imaging library. The model does not compute it: `Picture(c)` is the result of the conversion, and a palette or colour file is in the map as its converted channel. Opened images are used elsewhere only for their size (lines 107 and 109), which the conversion keeps. The `getchannel("L")` that follows, at lines 59-60, takes the only band of the converted image and is the identity.
- Image decoding and PNG encoding are foreign I/O. Decoding is the `FileContent` of a path. Saving is the `Saved` outcome carrying the texture; no file-system update is modelled.
- `Images.__enter__`/`__exit__` and the `ExitStack` handle lifetimes are resource plumbing with no data behaviour. Only the order in which `Images.open` opens the two paths is modelled.
- `Processing.Execute`: `Saved` means `image.save` was called. It can still raise, and `process` does not catch it. Examples are a destination with no known extension, such as "out", and "out.jpg", since RGBA cannot be written as JPEG. The file format follows from the extension inside the imaging library, which is not part of this model.
- `Processing.OpenOne`: only the two caught exceptions are modelled. `Image.open` on a directory or an unreadable file raises another `OSError`, which is uncaught. Such paths are outside the model, which has no outcome for them. A path missing from the map stands only for a path that does not exist, not for a directory or an unreadable file, so the model's `FileNotFound` is not what the code does for them.
- `Processing.Render`: a file that opens but whose data is truncated raises `OSError` when its pixels are first read, inside `combine`. That is uncaught. `Picture(c)` stands only for files that decode completely.
- The exception `Image.merge` raises on two files of different sizes is not caught in `process`. It is the `Crashed` outcome with no write, and its message text is not modelled.

## Findings

| source | as written | input that shows it | evidently intended | confidence | as-written member | corrected member |
|---|---|---|---|---|---|---|
| combiner.py:119-125 | `if not choice` tests the event that `Window.read` returns. For the key-less Yes and No buttons that event is the button text, "Yes" or "No", and closing is disabled. Both strings are true, so the early return never runs | an existing destination where the user clicks No: the file is overwritten and `process` returns True | No leaves the file alone and returns False (`if choice != "Yes"`) | medium; not executed; relies on the GUI toolkit reporting a key-less button by its text | Processing.ExecuteAsWritten | Processing.Execute |
| combiner.py:115-116 | `f"Not an image: {e.filename}"`, but the imaging library raises `UnidentifiedImageError` with only a message, so `e.filename` is `None` | any existing file that is not an image: the popup reads "Not an image: None" | the popup names the file, as the "File not found" popup does | medium; not executed; relies on how the imaging library raises the error | Processing.LoadError.Message | Processing.LoadError.IntendedMessage |

`NoStillOverwrites` and `AsWrittenIgnoresAnswer` exhibit the first discrepancy for one plan. `SubmitNoStillOverwrites` and `SubmitAsWrittenIgnoresAnswer` exhibit it for a whole form. `ExecuteSaveDecision` proves the intended behaviour of `Execute`: a run is declined exactly when the user refuses an existing destination. `MessageAsWritten` exhibits the second discrepancy. `IntendedMessageNamesFailure` proves that the intended texts tell every failure apart.

=== FILE: channels.dfy ===
/**
 Single-channel 8-bit images (PIL mode "L"), four-channel textures (mode
 "RGBA"), and the channel merge at the heart of the combiner: metallic in
 red, smoothness (or inverted roughness) in alpha, green and blue zero.

 Pixels are stored row-major: pixel (x, y) of an image `width` wide sits at
 index `y * width + x`.
 */
module Channels {

  /** One 8-bit sample. */
  type Byte = x: int | 0 <= x < 256

  datatype Grid = Grid(width: nat, height: nat, values: seq<Byte>)

  /** A single-channel 8-bit image: exactly one sample per pixel. */
  type Channel = g: Grid | |g.values| == g.width * g.height witness Grid(0, 0, [])

  datatype Pixel = Pixel(r: Byte, g: Byte, b: Byte, a: Byte)

  datatype PixelGrid = PixelGrid(width: nat, height: nat, pixels: seq<Pixel>)

  /** A four-channel 8-bit image: exactly one RGBA pixel per position. */
  type Texture = t: PixelGrid | |t.pixels| == t.width * t.height witness PixelGrid(0, 0, [])

  datatype Band = Red | Green | Blue | Alpha

  predicate SameSize(a: Channel, b: Channel) {
    a.width == b.width && a.height == b.height
  }

  /** Index of pixel (x, y) in the row-major sample sequence; always in range. */
  function Offset(width: nat, height: nat, x: nat, y: nat): (i: nat)
    requires x < width && y < height
    ensures i < width * height
  {
    OffsetInRange(width, height, x, y);
    y * width + x
  }

  lemma OffsetInRange(width: nat, height: nat, x: nat, y: nat)
    requires x < width && y < height
    ensures y * width + x < width * height
  {
    assert y * width <= (height - 1) * width;
  }

  /** The sample of `c` at column `x`, row `y`. */
  function At(c: Channel, x: nat, y: nat): Byte
    requires x < c.width && y < c.height
  {
    c.values[Offset(c.width, c.height, x, y)]
  }

  /** The pixel of `t` at column `x`, row `y`. */
  function PixelAt(t: Texture, x: nat, y: nat): Pixel
    requires x < t.width && y < t.height
  {
    t.pixels[Offset(t.width, t.height, x, y)]
  }

  /** `Image.new("L", (width, height), v)`: every sample is `v`. */
  function Filled(width: nat, height: nat, v: Byte): (c: Channel)
    ensures c.width == width && c.height == height
    ensures forall i :: 0 <= i < |c.values| ==> c.values[i] == v
  {
    Grid(width, height, seq(width * height, _ => v))
  }

  /** `Image.new("L", size)`: PIL's default fill colour is black. */
  function Blank(width: nat, height: nat): Channel {
    Filled(width, height, 0)
  }

  /** `ImageOps.invert` on an "L" image: every sample `v` becomes `255 - v`. */
  function Invert(c: Channel): (r: Channel)
    ensures SameSize(r, c)
    ensures forall i :: 0 <= i < |c.values| ==> r.values[i] == 255 - c.values[i]
  {
    Grid(c.width, c.height, seq(|c.values|, i requires 0 <= i < |c.values| => 255 - c.values[i]))
  }

  /** Inverting twice gives the channel back. */
  lemma InvertInvolutive(c: Channel)
    ensures Invert(Invert(c)) == c
  {
  }

  /** Inverting a solid channel gives the solid channel of the complementary value. */
  lemma InvertFilled(width: nat, height: nat, v: Byte)
    ensures Invert(Filled(width, height, v)) == Filled(width, height, 255 - v)
  {
  }

  /** `Image.merge("RGBA", [r, g, b, a])` for four same-sized bands. */
  function Merge(r: Channel, g: Channel, b: Channel, a: Channel): (t: Texture)
    requires SameSize(r, g) && SameSize(r, b) && SameSize(r, a)
    ensures t.width == r.width && t.height == r.height
    ensures forall i :: 0 <= i < |t.pixels| ==>
      t.pixels[i] == Pixel(r.values[i], g.values[i], b.values[i], a.values[i])
  {
    PixelGrid(r.width, r.height,
      seq(|r.values|, i requires 0 <= i < |r.values| =>
        Pixel(r.values[i], g.values[i], b.values[i], a.values[i])))
  }

  function Sample(p: Pixel, band: Band): Byte {
    match band
    case Red => p.r
    case Green => p.g
    case Blue => p.b
    case Alpha => p.a
  }

  /** `Image.getchannel(band)`: the single-channel image of one band of `t`. */
  function GetChannel(t: Texture, band: Band): (c: Channel)
    ensures c.width == t.width && c.height == t.height
    ensures forall i :: 0 <= i < |c.values| ==> c.values[i] == Sample(t.pixels[i], band)
  {
    Grid(t.width, t.height, seq(|t.pixels|, i requires 0 <= i < |t.pixels| => Sample(t.pixels[i], band)))
  }

  /** Splitting a merged texture gives back the four bands it was merged from. */
  lemma GetChannelOfMerge(r: Channel, g: Channel, b: Channel, a: Channel)
    requires SameSize(r, g) && SameSize(r, b) && SameSize(r, a)
    ensures GetChannel(Merge(r, g, b, a), Red) == r
    ensures GetChannel(Merge(r, g, b, a), Green) == g
    ensures GetChannel(Merge(r, g, b, a), Blue) == b
    ensures GetChannel(Merge(r, g, b, a), Alpha) == a
  {
  }

  /** Merging the four bands of a texture gives the texture back. */
  lemma MergeOfGetChannels(t: Texture)
    ensures Merge(GetChannel(t, Red), GetChannel(t, Green), GetChannel(t, Blue), GetChannel(t, Alpha)) == t
  {
  }

  /**
   `combine`: metallic goes to red, smoothness to alpha, green and blue are
   zero. When `isRough` is set the second channel is a roughness map and is
   inverted into smoothness first. The inputs are the channels after the
   grayscale conversion the source applies first; that conversion is not
   modelled.
   */
  function Combine(metallic: Channel, smoothness: Channel, isRough: bool): (t: Texture)
    requires SameSize(metallic, smoothness)
    ensures t.width == metallic.width && t.height == metallic.height
    ensures forall i :: 0 <= i < |t.pixels| ==>
      t.pixels[i] == Pixel(metallic.values[i], 0, 0,
                           if isRough then 255 - smoothness.values[i] else smoothness.values[i])
  {
    var alpha := if isRough then Invert(smoothness) else smoothness;
    var zero := Blank(metallic.width, metallic.height);
    Merge(metallic, zero, zero, alpha)
  }

  /** The same per-pixel promise, stated at column `x`, row `y`. */
  lemma CombineAt(metallic: Channel, smoothness: Channel, isRough: bool, x: nat, y: nat)
    requires SameSize(metallic, smoothness)
    requires x < metallic.width && y < metallic.height
    ensures PixelAt(Combine(metallic, smoothness, isRough), x, y)
         == Pixel(At(metallic, x, y), 0, 0,
                  if isRough then 255 - At(smoothness, x, y) else At(smoothness, x, y))
  {
  }

  /**
   Read band by band: red is the metallic input, green and blue are black,
   alpha is the smoothness input, or its inversion for a roughness map.
   */
  lemma CombineChannels(metallic: Channel, smoothness: Channel, isRough: bool)
    requires SameSize(metallic, smoothness)
    ensures GetChannel(Combine(metallic, smoothness, isRough), Red) == metallic
    ensures GetChannel(Combine(metallic, smoothness, isRough), Green) == Blank(metallic.width, metallic.height)
    ensures GetChannel(Combine(metallic, smoothness, isRough), Blue) == Blank(metallic.width, metallic.height)
    ensures GetChannel(Combine(metallic, smoothness, isRough), Alpha)
         == if isRough then Invert(smoothness) else smoothness
  {
  }

  /** A roughness map combines exactly as its inversion does when read as a smoothness map. */
  lemma CombineRoughIsCombineInverted(metallic: Channel, roughness: Channel)
    requires SameSize(metallic, roughness)
    ensures Combine(metallic, roughness, true) == Combine(metallic, Invert(roughness), false)
  {
  }
}

=== FILE: processing.dfy ===
/**
 The rest of `process`: open the named files (metallic first), stand in a
 black metallic channel or a white smoothness channel for the one left
 out, combine, and write the result unless the destination exists and
 the user declines to overwrite it.

 The file system is a map from path to what `Image.open` finds there; the
 existence of the destination and the answer to the overwrite prompt are
 plain inputs.
 */
module Processing {
  import opened Strings
  import opened Channels
  import opened Requests

  datatype Option<T> = None | Some(value: T)

  /**
   What `Image.open` finds at a path that exists: a decodable image or not.
   `Picture(c)` holds the image as `combine` sees it after its grayscale
   conversion; that conversion keeps the size, the only other thing the
   code reads from an opened image.
   */
  datatype FileContent = Picture(channel: Channel) | Garbage

  /** The files `Image.open` can see; a path without an entry does not exist. */
  type Files = map<string, FileContent>

  /** The two caught exceptions of the loading block, with the path that failed. */
  datatype LoadError = FileNotFound(path: string) | NotAnImage(path: string) {

    /**
     The text of the popup, as the code builds it from `e.filename`. The
     built-in `open` sets that attribute on `FileNotFoundError`, but the
     imaging library raises `UnidentifiedImageError` with a message only,
     so there it is `None`.
     */
    function Message(): string {
      match this
      case FileNotFound(p) => "File not found: " + p
      case NotAnImage(_) => "Not an image: None"
    }

    /** The popup the code evidently means: both kinds name the failing path. */
    function IntendedMessage(): string {
      match this
      case FileNotFound(p) => "File not found: " + p
      case NotAnImage(p) => "Not an image: " + p
    }
  }

  /** As written, a missing file's popup names it, but every "Not an image" popup reads the same. */
  lemma MessageAsWritten(p: string, q: string)
    ensures FileNotFound(p).Message() == FileNotFound(q).Message() ==> p == q
    ensures NotAnImage(p).Message() == NotAnImage(q).Message()
  {
    var prefix := "File not found: ";
    assert FileNotFound(p).Message()[|prefix|..] == p;
    assert FileNotFound(q).Message()[|prefix|..] == q;
  }

  /** The intended popups tell every failure apart: the kind and the path are both in the text. */
  lemma IntendedMessageNamesFailure(a: LoadError, b: LoadError)
    requires a != b
    ensures a.IntendedMessage() != b.IntendedMessage()
  {
    var missing, garbage := "File not found: ", "Not an image: ";
    if a.FileNotFound? && b.FileNotFound? {
      assert a.IntendedMessage()[|missing|..] == a.path;
      assert b.IntendedMessage()[|missing|..] == b.path;
    } else if a.NotAnImage? && b.NotAnImage? {
      assert a.IntendedMessage()[|garbage|..] == a.path;
      assert b.IntendedMessage()[|garbage|..] == b.path;
    } else {
      assert a.IntendedMessage()[0] != b.IntendedMessage()[0];
    }
  }

  datatype Loaded<T> = Ok(value: T) | Err(error: LoadError)

  /** What the two source paths opened to; `None` for a path left empty. */
  datatype Sources = Sources(metallic: Option<Channel>, smoothness: Option<Channel>)

  /** `Image.open` on one path of `Images.open`; an empty path is not opened at all. */
  function OpenOne(files: Files, path: string): (r: Loaded<Option<Channel>>)
    ensures r.Ok? ==> (r.value.Some? <==> path != "")
    ensures r.Ok? && r.value.Some? ==> path in files && files[path] == Picture(r.value.value)
    ensures r.Err? ==> path != "" && r.error.path == path
    ensures r.Err? ==> (r.error.FileNotFound? <==> path !in files)
    ensures path != "" && path in files && files[path].Picture? ==> r == Ok(Some(files[path].channel))
  {
    if path == "" then Ok(None)
    else if path !in files then Err(FileNotFound(path))
    else match files[path]
      case Picture(c) => Ok(Some(c))
      case Garbage => Err(NotAnImage(path))
  }

  /** `Images.open`: the metallic path is opened before the smoothness path, so its failure is the one reported. */
  function OpenBoth(files: Files, metallicPath: string, smoothnessPath: string): (r: Loaded<Sources>)
    ensures r.Ok? <==> OpenOne(files, metallicPath).Ok? && OpenOne(files, smoothnessPath).Ok?
    ensures r.Ok? ==> r.value == Sources(OpenOne(files, metallicPath).value, OpenOne(files, smoothnessPath).value)
    ensures OpenOne(files, metallicPath).Err? ==> r == Err(OpenOne(files, metallicPath).error)
    ensures OpenOne(files, metallicPath).Ok? && OpenOne(files, smoothnessPath).Err? ==>
      r == Err(OpenOne(files, smoothnessPath).error)
  {
    match OpenOne(files, metallicPath)
    case Err(e) => Err(e)
    case Ok(m) =>
      match OpenOne(files, smoothnessPath)
      case Err(e) => Err(e)
      case Ok(s) => Ok(Sources(m, s))
  }

  /**
   The fill step: a missing metallic channel becomes black at the size of
   the smoothness channel; a missing smoothness channel becomes an
   inverted black, that is white, at the size of the (possibly filled)
   metallic channel. Opened channels pass through; when one was missing
   the two now have the same size.
   */
  function FillMissing(src: Sources): (pair: (Channel, Channel))
    requires src.metallic.Some? || src.smoothness.Some?
    ensures src.metallic.Some? ==> pair.0 == src.metallic.value
    ensures src.smoothness.Some? ==> pair.1 == src.smoothness.value
    ensures src.metallic.None? ==> pair.0 == Filled(pair.1.width, pair.1.height, 0)
    ensures src.smoothness.None? ==> pair.1 == Filled(pair.0.width, pair.0.height, 255)
    ensures src.metallic.None? || src.smoothness.None? ==> SameSize(pair.0, pair.1)
  {
    var m := if src.metallic.Some? then src.metallic.value
             else Blank(src.smoothness.value.width, src.smoothness.value.height);
    var s := if src.smoothness.Some? then src.smoothness.value else Invert(Blank(m.width, m.height));
    InvertFilled(m.width, m.height, 0);
    (m, s)
  }

  /** Result of the loading-and-combining block. */
  datatype Rendering =
    | Rendered(texture: Texture)
    | Failed(error: LoadError)
    | Mismatch    // `Image.merge` raises on bands of different sizes; `process` does not catch it

  /** The `with Images(...)` block: open, fill, combine. The caller guarantees at least one path. */
  function Render(files: Files, plan: Plan): (r: Rendering)
    requires plan.metallicPath != "" || plan.smoothnessPath != ""
    ensures r.Failed? <==> OpenBoth(files, plan.metallicPath, plan.smoothnessPath).Err?
    ensures r.Failed? ==> r.error == OpenBoth(files, plan.metallicPath, plan.smoothnessPath).error
    ensures r.Mismatch? ==> plan.metallicPath != "" && plan.smoothnessPath != ""
  {
    match OpenBoth(files, plan.metallicPath, plan.smoothnessPath)
    case Err(e) => Failed(e)
    case Ok(src) =>
      var (m, s) := FillMissing(src);
      if SameSize(m, s) then Rendered(Combine(m, s, plan.isRough)) else Mismatch
  }

  /** What one submission of the form comes to. */
  datatype Outcome =
    | Refused(reason: Reason)                  // "Oops" popup, returns False
    | LoadFailed(error: LoadError)             // popup from `LoadError.Message`, returns False
    | Crashed                                  // uncaught size mismatch from `Image.merge`
    | Declined                                 // destination exists, user clicked No: returns False silently
    | Saved(path: string, texture: Texture)    // `image.save(save_file)`, returns True

  /**
   What follows validation in `process`, with the overwrite prompt working
   as intended: render, then save unless `destExists` and the user does
   not `confirm` (clicks No).
   */
  function Execute(plan: Plan, files: Files, destExists: bool, confirm: bool): (o: Outcome)
    requires plan.metallicPath != "" || plan.smoothnessPath != ""
    ensures !o.Refused?
    ensures o.Saved? ==> (!destExists || confirm) && o.path == plan.saveFile
    ensures o.Declined? ==> destExists && !confirm
    ensures o.LoadFailed? <==> OpenBoth(files, plan.metallicPath, plan.smoothnessPath).Err?
    ensures o.Crashed? ==> plan.metallicPath != "" && plan.smoothnessPath != ""
  {
    match Render(files, plan)
    case Failed(e) => LoadFailed(e)
    case Mismatch => Crashed
    case Rendered(t) =>
      if destExists && !confirm then Declined else Saved(plan.saveFile, t)
  }

  /** The buttons of the overwrite prompt; closing it is disabled, so one of them is clicked. */
  datatype Answer = Yes | No {

    /** The event `Window.read` returns: a button without a key reports its text. */
    function Event(): string {
      match this
      case Yes => "Yes"
      case No => "No"
    }

    /** What the prompt is meant to mean: only Yes allows the overwrite. */
    predicate Confirms() {
      this == Yes
    }
  }

  /** Python's truth value of a string: only the empty string is false. */
  predicate Truthy(s: string) {
    s != ""
  }

  /**
   Lines 119-128 as written: `if not choice` tests the truth of the event
   text rather than which button it names. Both texts are true, so no run
   is ever declined.
   */
  function ExecuteAsWritten(plan: Plan, files: Files, destExists: bool, answer: Answer): (o: Outcome)
    requires plan.metallicPath != "" || plan.smoothnessPath != ""
    ensures !o.Refused? && !o.Declined?
    ensures o.Saved? ==> o.path == plan.saveFile
    ensures o.LoadFailed? <==> OpenBoth(files, plan.metallicPath, plan.smoothnessPath).Err?
  {
    match Render(files, plan)
    case Failed(e) => LoadFailed(e)
    case Mismatch => Crashed
    case Rendered(t) =>
      if destExists && !Truthy(answer.Event()) then Declined else Saved(plan.saveFile, t)
  }

  /** As written, neither the destination nor the answer matters: every run ends as it would on a new destination. */
  lemma AsWrittenIgnoresAnswer(plan: Plan, files: Files, destExists: bool, answer: Answer)
    requires plan.metallicPath != "" || plan.smoothnessPath != ""
    ensures ExecuteAsWritten(plan, files, destExists, answer) == Execute(plan, files, false, false)
  {
  }

  /**
   The discrepancy: clicking No on an existing destination still
   overwrites it, where the intended prompt, which confirms only on Yes,
   declines.
   */
  lemma NoStillOverwrites(plan: Plan, files: Files)
    requires plan.metallicPath != "" || plan.smoothnessPath != ""
    requires Render(files, plan).Rendered?
    ensures ExecuteAsWritten(plan, files, true, No) == Saved(plan.saveFile, Render(files, plan).texture)
    ensures Execute(plan, files, true, No.Confirms()) == Declined
  {
  }

  /**
   `process` after the form is read: check the form, then execute the
   plan. The answer to the overwrite prompt is a parameter; it is asked
   for only when the destination exists and is ignored otherwise.
   */
  function Submit(f: Form, files: Files, destExists: bool, confirm: bool): (o: Outcome)
    ensures o.Refused? <==> Decide(f).Rejected?
    ensures o.Refused? ==> o.reason == Decide(f).reason
    ensures o.Saved? ==> (!destExists || confirm) && o.path == f.saveFile != ""
    ensures o.Declined? ==> destExists && !confirm
    ensures o.Crashed? ==> f.mode == UseColor && !f.nonMetallic
  {
    match Decide(f)
    case Rejected(k) => Refused(k)
    case Accepted(plan) =>
      AcceptedHasSource(f);
      Execute(plan, files, destExists, confirm)
  }

  /** `process`: read the form, then submit it. */
  function Process(req: Request, files: Files, destExists: bool, confirm: bool): (o: Outcome)
    ensures o.Refused? <==> Validate(req).Rejected?
    ensures o.Saved? ==> (!destExists || confirm) && o.path == Strip(req.saveAs) != ""
    ensures o.Declined? ==> destExists && !confirm
    ensures o.Crashed? ==> !req.solid && !req.nonMetallic
  {
    Submit(Read(req), files, destExists, confirm)
  }

  /** `process` after the form is read, with lines 119-128 as written: `Decide`, then `ExecuteAsWritten`. */
  function SubmitAsWritten(f: Form, files: Files, destExists: bool, answer: Answer): (o: Outcome)
    ensures o.Refused? <==> Decide(f).Rejected?
    ensures o.Refused? ==> o.reason == Decide(f).reason
    ensures o.Saved? ==> o.path == f.saveFile != ""
    ensures !o.Declined?
  {
    match Decide(f)
    case Rejected(k) => Refused(k)
    case Accepted(plan) =>
      AcceptedHasSource(f);
      ExecuteAsWritten(plan, files, destExists, answer)
  }

  /** `process` as written: read the form, then submit it with the prompt as the code tests it. */
  function ProcessAsWritten(req: Request, files: Files, destExists: bool, answer: Answer): (o: Outcome)
    ensures o.Refused? <==> Validate(req).Rejected?
    ensures o.Saved? ==> o.path == Strip(req.saveAs) != ""
    ensures !o.Declined?
  {
    SubmitAsWritten(Read(req), files, destExists, answer)
  }

  /**
   As written, a whole submission ends as the intended one does on a new
   destination, whichever button is clicked: the prompt changes nothing.
   */
  lemma SubmitAsWrittenIgnoresAnswer(f: Form, files: Files, destExists: bool, answer: Answer)
    ensures SubmitAsWritten(f, files, destExists, answer) == Submit(f, files, false, false)
  {
    if Decide(f).Accepted? {
      AcceptedHasSource(f);
      AsWrittenIgnoresAnswer(Decide(f).plan, files, destExists, answer);
    }
  }

  /**
   The discrepancy for a whole submission: an accepted form whose files
   render, sent to an existing destination with No clicked, is saved as
   written and declined as intended.
   */
  lemma SubmitNoStillOverwrites(f: Form, files: Files)
    requires Decide(f).Accepted?
    requires Decide(f).plan.metallicPath != "" || Decide(f).plan.smoothnessPath != ""
    requires Render(files, Decide(f).plan).Rendered?
    ensures SubmitAsWritten(f, files, true, No) == Saved(f.saveFile, Render(files, Decide(f).plan).texture)
    ensures Submit(f, files, true, No.Confirms()) == Declined
  {
    NoStillOverwrites(Decide(f).plan, files);
  }

  /** An accepted form runs its plan, which names a source file. */
  lemma SubmitAccepted(f: Form, files: Files, destExists: bool, confirm: bool)
    requires Decide(f).Accepted?
    ensures Decide(f).plan.metallicPath != "" || Decide(f).plan.smoothnessPath != ""
    ensures Submit(f, files, destExists, confirm) == Execute(Decide(f).plan, files, destExists, confirm)
  {
    AcceptedHasSource(f);
  }

  /**
   Solid mode with only a metallic file: red is that file, green and blue
   are black, and alpha is white for a smoothness map or, since the white
   fill is then inverted as roughness, black.
   */
  lemma RenderMetallicOnly(files: Files, plan: Plan, m: Channel)
    requires plan.metallicPath != "" && plan.smoothnessPath == ""
    requires plan.metallicPath in files && files[plan.metallicPath] == Picture(m)
    ensures Render(files, plan).Rendered?
    ensures GetChannel(Render(files, plan).texture, Red) == m
    ensures GetChannel(Render(files, plan).texture, Green) == Filled(m.width, m.height, 0)
    ensures GetChannel(Render(files, plan).texture, Blue) == Filled(m.width, m.height, 0)
    ensures GetChannel(Render(files, plan).texture, Alpha) == Filled(m.width, m.height, if plan.isRough then 0 else 255)
  {
  }

  /**
   Non-metallic with a smoothness file: red is black at the size of that
   file, and alpha is the file itself, or its inversion for a roughness map.
   */
  lemma RenderSmoothnessOnly(files: Files, plan: Plan, s: Channel)
    requires plan.metallicPath == "" && plan.smoothnessPath != ""
    requires plan.smoothnessPath in files && files[plan.smoothnessPath] == Picture(s)
    ensures Render(files, plan).Rendered?
    ensures GetChannel(Render(files, plan).texture, Red) == Filled(s.width, s.height, 0)
    ensures GetChannel(Render(files, plan).texture, Alpha) == if plan.isRough then Invert(s) else s
  {
  }

  /** Two files: combined as they are when their sizes agree, an uncaught mismatch otherwise. */
  lemma RenderBoth(files: Files, plan: Plan, m: Channel, s: Channel)
    requires plan.metallicPath != "" && plan.smoothnessPath != ""
    requires plan.metallicPath in files && files[plan.metallicPath] == Picture(m)
    requires plan.smoothnessPath in files && files[plan.smoothnessPath] == Picture(s)
    ensures SameSize(m, s) ==> Render(files, plan) == Rendered(Combine(m, s, plan.isRough))
    ensures !SameSize(m, s) ==> Render(files, plan) == Mismatch
  {
  }

  /**
   A path that does not open stops the run with its error; the metallic
   path is tried first, so its error wins whatever the smoothness path holds.
   */
  lemma RenderReportsFirstFailure(files: Files, plan: Plan)
    requires plan.metallicPath != "" || plan.smoothnessPath != ""
    ensures OpenOne(files, plan.metallicPath).Err? ==>
      Render(files, plan) == Failed(OpenOne(files, plan.metallicPath).error)
    ensures OpenOne(files, plan.metallicPath).Ok? && OpenOne(files, plan.smoothnessPath).Err? ==>
      Render(files, plan) == Failed(OpenOne(files, plan.smoothnessPath).error)
  {
  }

  /**
   The overwrite decision for one plan: a run saves exactly when the same
   run against a fresh destination would save and, if the destination
   exists, the user confirms; it is declined exactly when the user refuses
   an existing destination. Every other outcome, and the texture saved,
   does not depend on the destination or on the answer.
   */
  lemma ExecuteSaveDecision(plan: Plan, files: Files, destExists: bool, confirm: bool)
    requires plan.metallicPath != "" || plan.smoothnessPath != ""
    ensures Execute(plan, files, destExists, confirm).Saved?
        <==> Execute(plan, files, false, false).Saved? && (!destExists || confirm)
    ensures Execute(plan, files, destExists, confirm).Declined?
        <==> Execute(plan, files, false, false).Saved? && destExists && !confirm
    ensures Execute(plan, files, destExists, confirm).Saved? ==>
      Execute(plan, files, destExists, confirm) == Execute(plan, files, false, false)
    ensures !Execute(plan, files, false, false).Saved? ==>
      Execute(plan, files, destExists, confirm) == Execute(plan, files, false, false)
  {
  }

  /** The same decision for a whole submission; a refused form never reaches the prompt. */
  lemma SaveDecision(f: Form, files: Files, destExists: bool, confirm: bool)
    ensures Submit(f, files, destExists, confirm).Saved?
        <==> Submit(f, files, false, false).Saved? && (!destExists || confirm)
    ensures Submit(f, files, destExists, confirm).Declined?
        <==> Submit(f, files, false, false).Saved? && destExists && !confirm
    ensures Submit(f, files, destExists, confirm).Saved? ==>
      Submit(f, files, destExists, confirm) == Submit(f, files, false, false)
    ensures !Submit(f, files, false, false).Saved? ==>
      Submit(f, files, destExists, confirm) == Submit(f, files, false, false)
  {
    if Decide(f).Accepted? {
      SubmitAccepted(f, files, destExists, confirm);
      SubmitAccepted(f, files, false, false);
      ExecuteSaveDecision(Decide(f).plan, files, destExists, confirm);
    }
  }

  /**
   Solid mode end to end: the saved texture has the metallic file in red
   and alpha white everywhere when "Smoothness" is checked (the form is
   not rough), black when it is not; it is saved exactly when the
   destination is new or the user confirms.
   */
  lemma SolidModeOutput(f: Form, files: Files, m: Channel, destExists: bool, confirm: bool)
    requires Decide(f).Accepted? && f.mode == UseSolid
    requires f.metallic in files && files[f.metallic] == Picture(m)
    ensures Submit(f, files, destExists, confirm).Saved? <==> !destExists || confirm
    ensures Submit(f, files, destExists, confirm).Declined? <==> destExists && !confirm
    ensures Submit(f, files, destExists, confirm).Saved? ==>
      && GetChannel(Submit(f, files, destExists, confirm).texture, Red) == m
      && GetChannel(Submit(f, files, destExists, confirm).texture, Alpha)
         == Filled(m.width, m.height, if f.isRough then 0 else 255)
  {
    SubmitAccepted(f, files, destExists, confirm);
    RenderMetallicOnly(files, Decide(f).plan, m);
  }

  /**
   Non-metallic end to end: red is black at the size of the smoothness
   file, alpha is that file for a smoothness map and its inversion for a
   roughness map.
   */
  lemma NonMetallicOutput(f: Form, files: Files, s: Channel, destExists: bool, confirm: bool)
    requires Decide(f).Accepted? && f.nonMetallic
    requires f.smoothness in files && files[f.smoothness] == Picture(s)
    ensures Submit(f, files, destExists, confirm).Saved? <==> !destExists || confirm
    ensures Submit(f, files, destExists, confirm).Saved? ==>
      && GetChannel(Submit(f, files, destExists, confirm).texture, Red) == Filled(s.width, s.height, 0)
      && GetChannel(Submit(f, files, destExists, confirm).texture, Alpha)
         == if f.isRough then Invert(s) else s
  {
    SubmitAccepted(f, files, destExists, confirm);
    RenderSmoothnessOnly(files, Decide(f).plan, s);
  }

  /**
   Colour mode with both files: same-sized files are combined as they are,
   with inversion exactly when the form is rough; files of different
   sizes end in the uncaught mismatch and nothing is written.
   */
  lemma ColorModeOutput(f: Form, files: Files, m: Channel, s: Channel, destExists: bool, confirm: bool)
    requires Decide(f).Accepted? && !f.nonMetallic && f.mode == UseColor
    requires f.metallic in files && files[f.metallic] == Picture(m)
    requires f.smoothness in files && files[f.smoothness] == Picture(s)
    ensures SameSize(m, s) && (!destExists || confirm) ==>
      Submit(f, files, destExists, confirm) == Saved(f.saveFile, Combine(m, s, f.isRough))
    ensures !SameSize(m, s) ==> Submit(f, files, destExists, confirm) == Crashed
  {
    SubmitAccepted(f, files, destExists, confirm);
    RenderBoth(files, Decide(f).plan, m, s);
  }

  /**
   A named source file that does not open ends the run with that file's
   error and no write, whatever the destination and the answer; the
   metallic file's error is the one reported when both fail.
   */
  lemma LoadFailureReported(f: Form, files: Files, destExists: bool, confirm: bool)
    requires Decide(f).Accepted?
    ensures OpenOne(files, Decide(f).plan.metallicPath).Err? ==>
      Submit(f, files, destExists, confirm) == LoadFailed(OpenOne(files, Decide(f).plan.metallicPath).error)
    ensures OpenOne(files, Decide(f).plan.metallicPath).Ok? && OpenOne(files, Decide(f).plan.smoothnessPath).Err? ==>
      Submit(f, files, destExists, confirm) == LoadFailed(OpenOne(files, Decide(f).plan.smoothnessPath).error)
  {
    SubmitAccepted(f, files, destExists, confirm);
    RenderReportsFirstFailure(files, Decide(f).plan);
  }
}

=== FILE: requests.dfy ===
/**
 The validation half of `process`: the form's values are trimmed, checked
 against four rules in a fixed order, and, if none fails, normalised into
 the two source paths to load, the inversion flag and the destination.
 */
module Requests {
  import opened Strings

  /** The form's values as `process` reads them, before trimming. */
  datatype Request = Request(
    metallic: string,     // "metallic" path field
    nonMetallic: bool,    // "Non-metallic" checkbox
    smoothness: string,   // "smoothness" path field
    smooth: bool,         // "Smoothness" checkbox: the second map is smoothness, not roughness
    solid: bool,          // "All solid" checkbox
    saveAs: string        // "saveas" path field
  )

  /** `USE_COLOR` / `USE_SOLID`. */
  datatype Mode = UseColor | UseSolid

  /** The form after the first lines of `process`: paths trimmed, checkboxes turned into flags. */
  datatype Form = Form(
    metallic: string,
    nonMetallic: bool,
    smoothness: string,
    isRough: bool,
    saveFile: string,
    mode: Mode
  )

  /** Reading the request: every path field is stripped, `is_rough` is `not smooth`. */
  function Read(req: Request): (f: Form)
    ensures Stripped(f.metallic) && Stripped(f.smoothness) && Stripped(f.saveFile)
    ensures f.saveFile == "" <==> AllSpace(req.saveAs)
    ensures f.metallic == "" <==> AllSpace(req.metallic)
    ensures f.smoothness == "" <==> AllSpace(req.smoothness)
  {
    Form(Strip(req.metallic), req.nonMetallic, Strip(req.smoothness), !req.smooth, Strip(req.saveAs),
         if req.solid then UseSolid else UseColor)
  }

  /** The rejection rules, in the order `process` checks them. */
  datatype Reason = NoSaveFile | NoMetallic | NoSmoothness | NoSource {

    /** Position of the rule in the checking order. */
    function Rank(): nat {
      match this
      case NoSaveFile => 0
      case NoMetallic => 1
      case NoSmoothness => 2
      case NoSource => 3
    }

    /** The text of the "Oops" popup. */
    function Message(): string {
      match this
      case NoSaveFile => "You need to specify a save file!"
      case NoMetallic => "You need to specify a metallic file (or check Non-metallic)!"
      case NoSmoothness => "You need to specify a roughness/smoothness file!"
      case NoSource => "You need to specify at least a metallic file or a roughness/smoothness file!"
    }
  }

  /** Every rule has its own popup text, so the user can tell which rule objected. */
  lemma MessagesDistinct(a: Reason, b: Reason)
    requires a != b
    ensures a.Message() != b.Message()
  {
  }

  /** What an accepted request asks for: an empty path means "no file, fill in". */
  datatype Plan = Plan(metallicPath: string, smoothnessPath: string, isRough: bool, saveFile: string)

  datatype Validation = Rejected(reason: Reason) | Accepted(plan: Plan)

  /** Rule `k` of the decision table, on its own, objects to the form. */
  predicate Fails(k: Reason, f: Form) {
    match k
    case NoSaveFile => f.saveFile == ""
    case NoMetallic => f.metallic == "" && !f.nonMetallic
    case NoSmoothness => f.mode == UseColor && f.smoothness == ""
    case NoSource => f.mode == UseSolid && f.nonMetallic
  }

  /** Some rule of the decision table objects to the form. */
  predicate AnyFails(f: Form) {
    Fails(NoSaveFile, f) || Fails(NoMetallic, f) || Fails(NoSmoothness, f) || Fails(NoSource, f)
  }

  /**
   The checks and normalisation of `process` on a read form. It is
   rejected exactly when some rule fails, and then for the first failing
   rule in checking order; an accepted form drops the metallic path when
   Non-metallic is checked and the smoothness path in solid mode, and
   keeps everything else.
   */
  function Decide(f: Form): (v: Validation)
    ensures v.Rejected? <==> AnyFails(f)
    ensures v.Rejected? ==> Fails(v.reason, f)
    ensures v.Rejected? ==> forall k: Reason :: k.Rank() < v.reason.Rank() ==> !Fails(k, f)
    ensures v.Accepted? ==> v.plan.metallicPath == (if f.nonMetallic then "" else f.metallic)
    ensures v.Accepted? ==> v.plan.smoothnessPath == (if f.mode == UseSolid then "" else f.smoothness)
    ensures v.Accepted? ==> v.plan.isRough == f.isRough && v.plan.saveFile == f.saveFile
  {
    if f.saveFile == "" then
      Rejected(NoSaveFile)
    else if f.metallic == "" && !f.nonMetallic then
      Rejected(NoMetallic)
    else if f.mode == UseColor && f.smoothness == "" then
      Rejected(NoSmoothness)
    else if f.mode == UseSolid && f.nonMetallic then
      Rejected(NoSource)
    else
      Accepted(Plan(if f.nonMetallic then "" else f.metallic,
                    if f.mode == UseSolid then "" else f.smoothness,
                    f.isRough, f.saveFile))
  }

  /** Lines 72-100 of `process`: read the form, then check and normalise it. */
  function Validate(req: Request): Validation {
    Decide(Read(req))
  }

  /** A blank destination is rejected first, whatever else the form holds. */
  lemma EmptySaveFileRejectedFirst(req: Request)
    requires AllSpace(req.saveAs)
    ensures Validate(req) == Rejected(NoSaveFile)
  {
  }

  /**
   The rest of the decision table in terms of the raw request, each row
   applying only when the rows above it pass.
   */
  lemma RejectionOrder(req: Request)
    requires !AllSpace(req.saveAs)
    ensures Validate(req) == Rejected(NoMetallic) <==> AllSpace(req.metallic) && !req.nonMetallic
    ensures Validate(req) == Rejected(NoSmoothness)
        <==> !(AllSpace(req.metallic) && !req.nonMetallic) && !req.solid && AllSpace(req.smoothness)
    ensures Validate(req) == Rejected(NoSource)
        <==> !(AllSpace(req.metallic) && !req.nonMetallic) && req.solid && req.nonMetallic
  {
  }

  /**
   What an accepted request turns into: Non-metallic empties the metallic
   path and solid mode the smoothness path, even when one was given; the
   other paths are the trimmed inputs and `isRough` is `not smooth`.
   */
  lemma AcceptedNormalisation(req: Request)
    ensures Validate(req).Accepted? ==>
      && Validate(req).plan.metallicPath == (if req.nonMetallic then "" else Strip(req.metallic))
      && Validate(req).plan.smoothnessPath == (if req.solid then "" else Strip(req.smoothness))
      && Validate(req).plan.isRough == !req.smooth
      && Validate(req).plan.saveFile == Strip(req.saveAs) != ""
  {
  }

  /**
   An accepted form always names at least one source file, so the fill
   step always has a size to copy. In solid mode that is the metallic
   file alone; in colour mode the smoothness file is always named.
   */
  lemma AcceptedHasSource(f: Form)
    requires Decide(f).Accepted?
    ensures Decide(f).plan.metallicPath != "" || Decide(f).plan.smoothnessPath != ""
    ensures f.mode == UseSolid ==> Decide(f).plan.metallicPath != "" && Decide(f).plan.smoothnessPath == ""
    ensures f.mode == UseColor ==> Decide(f).plan.smoothnessPath != ""
    ensures !f.nonMetallic <==> Decide(f).plan.metallicPath != ""
  {
  }

  /** The paths of an accepted request carry no surrounding whitespace. */
  lemma AcceptedPathsStripped(req: Request)
    ensures Validate(req).Accepted? ==>
      && Stripped(Validate(req).plan.metallicPath)
      && Stripped(Validate(req).plan.smoothnessPath)
      && Stripped(Validate(req).plan.saveFile)
  {
  }

  /** The request with every path field already stripped. */
  function Trimmed(req: Request): Request {
    req.(metallic := Strip(req.metallic), smoothness := Strip(req.smoothness), saveAs := Strip(req.saveAs))
  }

  /** Trimming the form beforehand changes nothing: validation already works on trimmed values. */
  lemma ValidateIgnoresPadding(req: Request)
    ensures Validate(Trimmed(req)) == Validate(req)
  {
    StripIdempotent(req.metallic);
    StripIdempotent(req.smoothness);
    StripIdempotent(req.saveAs);
    assert Read(Trimmed(req)) == Read(req);
  }

  /** Acceptance, spelled out on the raw request: exactly the requests that pass all four rules. */
  lemma AcceptedIff(req: Request)
    ensures Validate(req).Accepted? <==>
      && !AllSpace(req.saveAs)
      && (req.nonMetallic || !AllSpace(req.metallic))
      && (req.solid || !AllSpace(req.smoothness))
      && !(req.solid && req.nonMetallic)
  {
  }
}

=== FILE: strings.dfy ===
/**
 The whitespace trimming every form value goes through before it is
 validated: Python's `str.strip()` with no argument, which removes from
 both ends every character `str.isspace()` accepts.
 */
module Strings {

  /** The characters Python's `str.isspace()` accepts. */
  predicate IsSpace(c: char) {
    || ('\U{9}' <= c <= '\U{D}')       // tab, line feed, vertical tab, form feed, carriage return
    || ('\U{1C}' <= c <= '\U{20}')     // file/group/record/unit separators and space
    || c == '\U{85}' || c == '\U{A0}' || c == '\U{1680}'
    || ('\U{2000}' <= c <= '\U{200A}')
    || c == '\U{2028}' || c == '\U{2029}' || c == '\U{202F}' || c == '\U{205F}'
    || c == '\U{3000}'
  }

  predicate AllSpace(s: string) {
    forall i :: 0 <= i < |s| ==> IsSpace(s[i])
  }

  /** Neither end of `s` is whitespace: the shape `strip` leaves behind. */
  predicate Stripped(s: string) {
    |s| == 0 || (!IsSpace(s[0]) && !IsSpace(s[|s| - 1]))
  }

  /** `s.lstrip()`: the longest suffix of `s` that does not start with whitespace. */
  function TrimStart(s: string): (r: string)
    ensures |r| <= |s| && r == s[|s| - |r|..]
    ensures AllSpace(s[..|s| - |r|])
    ensures |r| > 0 ==> !IsSpace(r[0])
  {
    if |s| > 0 && IsSpace(s[0]) then TrimStart(s[1..]) else s
  }

  /** `s.rstrip()`: the longest prefix of `s` that does not end with whitespace. */
  function TrimEnd(s: string): (r: string)
    ensures |r| <= |s| && r == s[..|r|]
    ensures AllSpace(s[|r|..])
    ensures |r| > 0 ==> !IsSpace(r[|r| - 1])
  {
    if |s| > 0 && IsSpace(s[|s| - 1]) then TrimEnd(s[..|s| - 1]) else s
  }

  /** `s` is `r` with the whitespace-only `s[..i]` in front and the whitespace-only `s[i + |r|..]` behind. */
  predicate PaddedAt(s: string, r: string, i: int) {
    && 0 <= i <= |s| - |r|
    && s[i..i + |r|] == r
    && AllSpace(s[..i])
    && AllSpace(s[i + |r|..])
  }

  /** `s.strip()`: `s` with its leading and trailing whitespace removed, and nothing else. */
  function Strip(s: string): (r: string)
    ensures Stripped(r)
    ensures exists i :: PaddedAt(s, r, i)
    ensures |r| == 0 <==> AllSpace(s)
  {
    var r := TrimEnd(TrimStart(s));
    StripShape(s, TrimStart(s), r);
    r
  }

  /** What the two trimming halves promise, put together. */
  lemma StripShape(s: string, t: string, r: string)
    requires |t| <= |s| && t == s[|s| - |t|..] && AllSpace(s[..|s| - |t|]) && (|t| > 0 ==> !IsSpace(t[0]))
    requires |r| <= |t| && r == t[..|r|] && AllSpace(t[|r|..]) && (|r| > 0 ==> !IsSpace(r[|r| - 1]))
    ensures Stripped(r)
    ensures PaddedAt(s, r, |s| - |t|)
    ensures |r| == 0 <==> AllSpace(s)
  {
  }

  /** Whitespace followed by whitespace is whitespace. */
  lemma AllSpaceConcat(a: string, b: string)
    requires AllSpace(a) && AllSpace(b)
    ensures AllSpace(a + b)
  {
  }

  /** Leading whitespace in front of a string that does not start with whitespace is exactly what `lstrip` removes. */
  lemma {:induction false} TrimStartOfPadded(pre: string, x: string)
    requires AllSpace(pre)
    requires |x| == 0 || !IsSpace(x[0])
    ensures TrimStart(pre + x) == x
  {
    if |pre| > 0 {
      assert (pre + x)[1..] == pre[1..] + x;
      TrimStartOfPadded(pre[1..], x);
    } else {
      assert pre + x == x;
    }
  }

  /** Trailing whitespace behind a string that does not end with whitespace is exactly what `rstrip` removes. */
  lemma {:induction false} TrimEndOfPadded(x: string, post: string)
    requires AllSpace(post)
    requires |x| == 0 || !IsSpace(x[|x| - 1])
    ensures TrimEnd(x + post) == x
  {
    if |post| > 0 {
      assert (x + post)[..|x + post| - 1] == x + post[..|post| - 1];
      TrimEndOfPadded(x, post[..|post| - 1]);
    } else {
      assert x + post == x;
    }
  }

  /**
   Reference characterisation of `strip`: padding a string that has no
   whitespace at either end with whitespace on both sides, and stripping,
   gives the string back.
   */
  lemma StripOfPadded(pre: string, core: string, post: string)
    requires AllSpace(pre) && AllSpace(post)
    requires Stripped(core)
    ensures Strip(pre + core + post) == core
  {
    if |core| == 0 {
      assert pre + core + post == pre + post;
      AllSpaceConcat(pre, post);
    } else {
      assert pre + core + post == pre + (core + post);
      TrimStartOfPadded(pre, core + post);
      TrimEndOfPadded(core, post);
    }
  }

  /** Stripping twice is stripping once. */
  lemma StripIdempotent(s: string)
    ensures Strip(Strip(s)) == Strip(s)
  {
  }
}
